=== FILE: README.md ===
# DuApp learner state and session logic, in Dafny

DuApp is a German vocabulary trainer for Arabic speakers. This project models its logic, which has four parts:

- **Learner state store.** The vocabulary (`words`), the ids marked learned (`learned`) and the session streak (`streak`). The four mutators are `addWord`, `deleteWord`, `markAsLearned` and `incrementStreak`. The state is mirrored into three storage keys: `german_app_words`, `german_app_learned` and `german_app_streak`. Each key is read once at start-up and falls back to a default when it is missing. Each key is written again whenever its collection changes.
- **Flashcard session** (Learn screen). A state machine over `(index, flipped, complete)` that walks the words not yet learned. The queue it walks is recomputed from the store on every render.
- **Conversation playback.** A step counter and an append-only message log over a fixed scripted dialogue.
- **Dictionary.** The search and level filter, and the add-word form that builds an entry from partial input.

Every user action is one atomic transition. Each is a pure function over immutable datatypes.

| file | module | models |
|---|---|---|
| types.dfy | `Types` | the record types (`Word`, `Level`, `ConversationLine`, `Conversation`), plus `Option`/`Result` |
| seqs.dfy | `Seqs` | `Filter`, which selects in order (`Array.prototype.filter`), and the subsequence relation |
| seed.dfy | `Seed` | the bundled words w1..w10 and the conversation "Kennenlernen" |
| store.dfy | `AppStore` | the store state and its four mutators |
| persistence.dfy | `Persistence` | the storage keys, initial load, write-back, streak text, restart |
| learn.dfy | `Learn` | the flashcard session, as written and corrected |
| conversation.dfy | `Playback` | conversation playback |
| dictionary.dfy | `Dictionary` | the search predicate and the add-word form |
| scenarios.dfy | `Scenarios` | concrete runs over the bundled data |

Some behaviours of the code are easy to misread. The model follows the code:

- **Malformed stored data.** The loader does not catch `JSON.parse` errors. Stored streak text that `parseInt` reads as NaN is not caught either. The model reads only leading digits (see `Persistence.ParseInt` under Left out). It reports both as `Err(Malformed(key))`, and neither is replaced by a default. Only a missing key, or an empty stored string, gives the default.
- **Deleting by id.** `deleteWord` removes *every* entry that carries the id, not just one.
- **Adding an entry.** `addWord` does not check that the id is non-empty or fresh. Freshness is a hypothesis of the add-then-delete lemma, not a precondition of `AddWord`.
- **The learned ids.** They form a list, in marking order, not a set.
- **A session after learning "w1".** The bundled words have "w1" learned, which leaves nine cards:
  - nine "not yet" presses complete the session (`Scenarios.LearnW1ThenNineNotYet`);
  - "known" on the last card also completes it (`Scenarios.LearnW1EightNotYetThenKnown`);
  - "known" on an earlier card skips the next card once the delayed index update lands or, on the second-to-last card, makes the card screen read past the queue (see Findings).

## Model

| member | source | states |
|---|---|---|
| Seed.DailyWordsWellFormed | src/data/german_data.ts:4-95 | the bundled vocabulary has ten entries, pairwise distinct ids, all at level A1 |
| AppStore.AddWord | src/context/AppContext.tsx:50-52 | the new entry comes first, the old list follows unchanged after it (length + 1), learned ids and streak untouched |
| Seqs.FilterCounts | src/context/AppContext.tsx:55 | `filter` keeps every copy of each element that passes and no copy of one that fails (the result is the selected sub-multiset) |
| AppStore.DeleteWord | src/context/AppContext.tsx:54-56 | an entry survives iff it was present and its id differs, with every copy of it kept; survivors keep their order; no entry with the id remains; learned ids and streak untouched |
| AppStore.MarkAsLearned | src/context/AppContext.tsx:58-62 | the id is afterwards learned; learned ids become the old ones plus that id; appended only if absent, otherwise no change; words and streak untouched |
| AppStore.IncrementStreak | src/context/AppContext.tsx:64-66 | the streak grows by exactly one; nothing else changes |
| AppStore.MarkAsLearnedIdempotent | src/context/AppContext.tsx:58-62 | marking an id twice equals marking it once |
| AppStore.MarkAsLearnedKeepsNoDuplicates | src/context/AppContext.tsx:58-62 | a duplicate-free learned list stays duplicate-free and grows by at most one |
| AppStore.DeleteAbsentIdIsNoOp | src/context/AppContext.tsx:54-56 | deleting an id no entry carries leaves the whole state unchanged |
| AppStore.AddThenDeleteRestores | src/context/AppContext.tsx:50-56 | adding an entry with a fresh id and deleting that id restores the original state |
| AppStore.WithoutUniqueId | src/context/AppContext.tsx:54-56 | in a list with unique ids, deleting the id of entry i removes exactly entry i |
| AppStore.IncrementTimes | src/context/AppContext.tsx:64-66 | repeated increments never touch words or learned ids |
| AppStore.IncrementTimesCounts | src/context/AppContext.tsx:64-66 | n increments raise the streak by exactly n (from 0 they give n) |
| AppStore.Step | src/context/AppContext.tsx:50-66 | no single store mutator lowers the streak or drops a learned id |
| AppStore.RunMonotone | src/context/AppContext.tsx:50-66 | over any sequence of mutators the streak rises by exactly the number of increments and learned ids are never dropped |
| Persistence.NatToString | src/context/AppContext.tsx:47 | `toString` of the streak is a non-empty string of decimal digits without a leading zero |
| Persistence.ParseInt | src/context/AppContext.tsx:34 | `parseInt` without a radix yields a number iff the text starts with a decimal digit, or, after a `0x`/`0X` prefix, with a hexadecimal digit (NaN otherwise) |
| Persistence.ParseIntReadsHexPrefix | src/context/AppContext.tsx:34 | the prefix switches to base 16: "0x10" reads as 16, "0X1F" as 31, "0x" and "0xg" as NaN, and "010" still as 10 |
| Persistence.StreakTextRoundTrip | src/context/AppContext.tsx:32-48 | reading back the written streak text with `parseInt` returns the streak, for every value, and the text is never empty (so never falls back to 0) |
| Persistence.LoadWords | src/context/AppContext.tsx:22-25 | a missing or empty words slot loads the bundled vocabulary; a stored empty list loads as empty, not as the default |
| Persistence.LoadLearned | src/context/AppContext.tsx:27-30 | a missing or empty learned slot loads as no learned ids |
| Persistence.LoadStreak | src/context/AppContext.tsx:32-35 | a missing or empty streak slot loads as 0; loading fails exactly when a present slot is not text, or is text `parseInt` reads as NaN (no leading digit, or a `0x` prefix with no hexadecimal digit after it) |
| Persistence.Load | src/context/AppContext.tsx:22-35 | the initial load succeeds iff each of the three per-key loads succeeds |
| Persistence.FirstLaunchDefaults | src/context/AppContext.tsx:22-35 | empty storage loads the bundled words, no learned ids, streak 0 |
| Persistence.AbsentKeyResetsOnlyItsCollection | src/context/AppContext.tsx:22-35 | removing any one key resets exactly that collection to its default and leaves the other two as loaded |
| Persistence.Persist | src/context/AppContext.tsx:37-48 | each collection that changed is written under its own key only; unchanged collections and all other keys keep their stored values |
| Persistence.WriteAll | src/context/AppContext.tsx:37-48 | running all three effects leaves storage mirroring the state and other keys untouched |
| Persistence.LoadOfMirror | src/context/AppContext.tsx:22-48 | loading a storage that mirrors a state yields exactly that state |
| Persistence.Mount | src/context/AppContext.tsx:20-48 | mounting succeeds iff the load does; the mounted state is the loaded one and storage mirrors it |
| Persistence.Apply | src/context/AppContext.tsx:37-66 | a mutator plus its persistence effects keeps storage mirroring the state |
| Persistence.ApplyAll | src/context/AppContext.tsx:37-66 | the state after a sequence of persisted actions is the store run of those actions |
| Persistence.MirrorsAfterAll | src/context/AppContext.tsx:37-66 | the mirror property survives any sequence of persisted actions |
| Persistence.RestartRecoversState | src/context/AppContext.tsx:22-66 | after mounting and any sequence of mutators, a restart loads exactly the in-memory state |
| Learn.WordsToLearn | src/pages/Learn.tsx:10 | the queue holds exactly the words whose id is not learned, as an order-preserving subsequence of the vocabulary |
| Learn.WordsToLearnCounts | src/pages/Learn.tsx:10 | the queue keeps every copy of each unlearned entry and no copy of a learned one |
| Learn.View | src/pages/Learn.tsx:42-70 | all-done iff the queue is empty and the session open; finished iff complete; a card iff open and the index is in range, and that card is the queue's entry at the index and is not learned |
| Learn.Tap | src/pages/Learn.tsx:95 | tapping on the card screen toggles `flipped` only; elsewhere there is no change |
| Learn.TapTwiceRestores | src/pages/Learn.tsx:95 | two taps on the same screen give back the session as it was |
| Learn.HandleNext | src/pages/Learn.tsx:18-31 | "known" on an in-range index appends that queue entry's id, otherwise learned ids are kept; the card is turned face down; words untouched; below the pre-press length minus one the index advances by one with streak and completion unchanged, otherwise the session completes at the same index with streak + 1 |
| Learn.Press | src/pages/Learn.tsx:124-139 | the buttons act only on the card screen: elsewhere nothing changes; a press leaves the card face down, never touches the words, raises the streak by at most one and drops no learned id |
| Learn.PressOnCard | src/pages/Learn.tsx:18-31 | a press on a card: "known" appends the shown card's id and "not yet" leaves learned ids alone; words untouched; card face down; before the last card the index advances by one with no completion; on the last card the session completes with streak + 1 |
| Learn.NoPressOffCard | src/pages/Learn.tsx:42-70 | on the all-done and finished screens no press changes anything |
| Learn.NotYetKeepsCardInRange | src/pages/Learn.tsx:18-31 | "not yet" on a card never leads to an out-of-range index, and changes the store at most by one increment |
| Learn.MarkShrinksQueue | src/pages/Learn.tsx:10 | marking an id learned removes exactly the entries with that id from the recomputed queue |
| Learn.KnownSkipsNextCard | src/pages/Learn.tsx:16-26 | with unique ids, "known" removes the shown card from the queue while the index still advances: the next card is skipped, and on the second-to-last card the screen indexes past the queue |
| Learn.StreakOncePerSession | src/pages/Learn.tsx:27-30 | within one visit the streak is incremented exactly once, at completion; completion is never undone; words are unchanged and learned ids never dropped |
| Learn.CardAtIndex | src/pages/Learn.tsx:16 | an open session whose index is inside the queue shows the queue's card at that index |
| Learn.PressBeforeLast | src/pages/Learn.tsx:18-27 | a press before the last card moves the index on by one, face down and still open, and marks the shown card exactly when "known" |
| Learn.KnownRemovesShownCard | src/pages/Learn.tsx:10-20 | with unique ids, marking the i-th queued card learned removes exactly that card from the recomputed queue |
| Learn.NotYetAdvances | src/pages/Learn.tsx:25-26 | j "not yet" presses with more than j cards left move the index on by exactly j and leave the store unchanged |
| Learn.NotYetShowsCard | src/pages/Learn.tsx:25-30 | after j "not yet" presses with more than j cards left, the session is open at index + j, the store is unchanged and the card shown is the j-th after the first |
| Learn.PressOnLast | src/pages/Learn.tsx:18-30 | a press on the last card completes the session face down, marks the card when "known", and raises the streak by one |
| Learn.KnownOnLastCompletes | src/pages/Learn.tsx:18-30 | "known" on the last card completes the session, appends that card's id to the learned ids and raises the streak by one, with the words unchanged |
| Learn.NotYetsThenKnownCompletes | src/pages/Learn.tsx:18-30 | "not yet" on every card but the last, then "known" on the last, completes the session at the last index, appends the last card's id to the learned ids and raises the streak by one |
| Learn.NotYetWalksWholeQueue | src/pages/Learn.tsx:25-30 | "not yet" on each remaining card shows the cards one by one in queue order with the store untouched in between, and completes after exactly that many presses with streak + 1 and nothing else changed |
| Learn.HandleNextFixed | src/pages/Learn.tsx:18-31 | corrected transition: the same marking and face-down rules; while the session stays open its index is inside the post-press queue and the streak is unchanged; completing raises the streak by one |
| Learn.PressFixed | src/pages/Learn.tsx:124-139 | corrected press: off the card screen nothing changes; on it the result is complete or has an index inside the post-press queue, and no learned id is dropped |
| Learn.FixedNeverBreaks | src/pages/Learn.tsx:18-31 | with the corrected transition a press on a card always leads to a card or to completion; after "known" the card shown is the one that followed |
| Playback.Open | src/pages/Conversation.tsx:14-25 | playback exists iff there is a conversation with a non-empty dialogue; it starts at step 0 with one bot message for line 0 |
| Playback.CanRecord | src/pages/Conversation.tsx:137 | for a consistent playback, recording is offered exactly while some line of the script is not yet in the log |
| Playback.Record | src/pages/Conversation.tsx:37-73 | when recording is not offered nothing changes; otherwise the log is extended with a user message for line step+1, then a bot message for line step+2 with step := step+2 if that line exists, else step := step+1 |
| Playback.OpenIsConsistent | src/pages/Conversation.tsx:14-25 | the opened playback satisfies the log invariant |
| Playback.RecordKeepsConsistent | src/pages/Conversation.tsx:44-70 | recording preserves the invariant: the log is lines 0..step in order, bot at even and user at odd positions, step < length |
| Playback.PlaybackPlaysWholeScript | src/pages/Conversation.tsx:137-155 | enough record presses play every line, alternating senders, and end with recording no longer offered |
| Dictionary.LowerChar | src/pages/Dictionary.tsx:14-15 | ASCII upper-case letters map to lower case; all other characters are unchanged |
| Dictionary.Lower | src/pages/Dictionary.tsx:14-15 | lower-casing keeps length and lowers each character |
| Dictionary.Includes | src/pages/Dictionary.tsx:14-16 | the empty text is included in every text, a prefix is included, and an included text is no longer than the text it is in |
| Dictionary.IncludesIsOccurrence | src/pages/Dictionary.tsx:14-16 | `includes` holds iff the search text occurs at some position |
| Dictionary.Matches | src/pages/Dictionary.tsx:13-18 | a match always satisfies the level filter; with an empty search text an entry matches iff the filter is All or names its level |
| Dictionary.FilteredWords | src/pages/Dictionary.tsx:13-19 | a word is listed iff it is in the vocabulary and matches (German/English case-insensitively or Arabic as typed, and the level filter is All or its level), with every copy of it kept; the listing preserves order; with a level filter every result has that level |
| Dictionary.EmptySearchListsEverything | src/pages/Dictionary.tsx:13-19 | an empty search with filter All lists the whole vocabulary in order |
| Dictionary.GlossMatchIgnoresTermCase | src/pages/Dictionary.tsx:14-15 | the German/English test gives the same answer for the search text and its lower-cased form |
| Dictionary.ApplyEdit | src/pages/Dictionary.tsx:148-179 | typing into the German, English, Arabic or example input sets exactly that field to the typed text and keeps every other field, level and category included |
| Dictionary.ThreeFieldsMakeFormSubmittable | src/pages/Dictionary.tsx:115-179 | typing non-empty German, English and Arabic into a fresh form makes it submittable, and the entry built is those texts with an empty example, level A1 and category "General" |
| Dictionary.Submit | src/pages/Dictionary.tsx:120-134 | an entry is built iff German, English and Arabic are all non-empty; it copies them verbatim with the given id; example defaults to empty; category defaults to "General"; level is the form's |
| Dictionary.SubmittedFromFormIsA1General | src/pages/Dictionary.tsx:115-131 | whatever is typed, an entry submitted from the form is level A1, category "General" |
| Dictionary.SaveForm | src/pages/Dictionary.tsx:120-131 | a rejected form leaves the store unchanged; an accepted one prepends the built entry; learned ids and streak untouched |
| Dictionary.SaveThenDeleteRestores | src/pages/Dictionary.tsx:120-131 | saving a form under a fresh id and deleting that id restores the store |
| Scenarios.QueueOfNothingLearned | src/pages/Learn.tsx:10 | with nothing learned the queue is the whole vocabulary |
| Scenarios.QueueAfterLearningW1 | src/pages/Learn.tsx:10 | bundled data, "w1" marked: learned is exactly ["w1"] and the queue is w2..w10 in order |
| Scenarios.LearnW1ThenNineNotYet | src/pages/Learn.tsx:18-31 | bundled data, "w1" marked: nine "not yet" presses complete the session with streak 1 and learned still ["w1"] |
| Scenarios.LastCardAfterW1 | src/pages/Learn.tsx:10 | bundled data, "w1" marked: the queue has nine cards and the last is "w10" |
| Scenarios.LearnW1EightNotYetThenKnown | src/pages/Learn.tsx:18-31 | bundled data, "w1" marked: eight "not yet" presses and then "known" on "w10" complete the session with streak 1 and learned ["w1", "w10"] |
| Scenarios.KnownOnFirstOfTwoBreaks | src/pages/Learn.tsx:16-26 | two cards, "known" on the first: the card screen then indexes past the one-card queue |
| Scenarios.KnownOnFirstOfThreeSkipsSecond | src/pages/Learn.tsx:16-26 | three cards, "known" on the first: once the delayed index update has landed the third card is shown and the second is skipped without a press (with the timer taken as atomic, the second is not shown at all) |
| Scenarios.AddThenDeleteW11 | src/context/AppContext.tsx:50-56 | adding "w11" to the bundled words and deleting it restores the state |
| Scenarios.DeleteLeavesOrphanedLearnedId | src/context/AppContext.tsx:54-62 | deleting a learned word leaves its id in the learned list |
| Scenarios.BundledConversationInOnePress | src/pages/Conversation.tsx:37-73 | the bundled conversation: opening shows line 0; one record press adds line 1 (user) and line 2 (bot); then it is finished |

## Findings

| source | as written | input that shows it | evidently intended | confidence | as-written member | corrected member |
|---|---|---|---|---|---|---|
| src/pages/Learn.tsx:25-26 | after "known", the index advances against the queue length taken before the press, but the queue is recomputed without the learned card | words w1, w2, nothing learned, press "known" on w1: the index becomes 1 over the one-card queue [w2], and the card render reads `german` of `undefined`; with three cards, "known" on w1 leaves w2 on screen, face down, only until the delayed index update (300 ms) lands, and w2 is then skipped without a press; with the timer taken as atomic, the model goes straight to w3 | keep the index after "known" (the next card slides into place), advance after "not yet", and complete when no card is left at that index | high (not executed) | Learn.KnownSkipsNextCard | Learn.FixedNeverBreaks |

`Learn.HandleNext` is the code as written. `Scenarios.KnownOnFirstOfTwoBreaks` and `Scenarios.KnownOnFirstOfThreeSkipsSecond` give concrete inputs. `Learn.HandleNextFixed` is the corrected transition. The other session lemmas describe the code as written, so that its behaviour is what is proved.

## Left out

- Rendering, styling and layout (`Layout.tsx`, `Home.tsx`, the Tailwind config) are left out. Home only displays the first five words and a fixed "3/10".
- Routing (`App.tsx`) and the mobile packaging configuration are left out. They are library glue and configuration.
- Speech synthesis is a foreign platform API. It is treated as a no-op.
- Timers and interleavings are left out. Each press is one atomic step. The 300 ms index update, the recording delay and the bot-reply delay are not modelled. Neither is the window in which a second record press could reuse a stale step.
- The stale-closure read of the learned list in `markAsLearned` is left out, because it is a concurrency concern.
- Real `localStorage` strings and `JSON.stringify`/`JSON.parse` are abstracted, and storage write failures are not modelled. A slot holding the JSON text of an array is represented by the array (`WordList` or `IdList`); any other text is `Text`, so `Text` never holds an array's JSON. The representation is not one-to-one: the text "[]" is both `WordList([])` and `IdList([])`. The loaders therefore accept an empty list of either kind.
- Persistence.Persist: it writes a key only when the collection's value changed. The code also rewrites an unchanged words list after deleting an absent id, because the filter returns a new array. The stored content is the same either way.
- Persistence.LoadWords: it reports a wrongly shaped but parseable value as `Malformed`. The code would carry on with ill-typed state.
- Persistence.LoadLearned: it reports a wrongly shaped but parseable value, such as a non-empty list of entries, as `Malformed`. The code would carry on with ill-typed state.
- Persistence.ParseInt: it reads leading ASCII decimal digits, or hexadecimal digits after a `0x`/`0X` prefix. It does not skip leading whitespace or accept a sign, so text such as " 5" or "-3", which JavaScript reads as 5 and -3, is NaN here.
- Persistence.LoadStreak: it reports a streak slot that reads as NaN as a load error. The code keeps NaN as the streak and writes "NaN" back.
- Persistence.NatToString: it gives decimal text for every natural number. JavaScript switches to exponent notation from 10^21 and loses precision above 2^53. One increment per session cannot get there.
- Dictionary.LowerChar: it lower-cases ASCII letters only. Unicode case mapping, such as "Ä" to "ä", is not modelled.
- Dictionary.Lower: it inherits `LowerChar`'s ASCII-only mapping, so it always keeps length. JavaScript's `toLowerCase` can change length for some Unicode characters, such as "İ".
- Identifier generation with `Date.now()` is not modelled. The id is a parameter, and freshness is a hypothesis where a lemma needs it.
- Grammar lessons and thematic packs are read-only display data. They are not transcribed.
- `useApp` throws outside the provider. That is wiring, not logic.
- The reload button on the finished screen starts a fresh visit, which is `Learn.Start`.
- Playback ignores the `speaker` field of dialogue lines, as the code does. The sender is decided by position.

=== FILE: conversation.dfy ===
/** Playback of a scripted conversation: the bot speaks the first line, and
    each "record" press appends the next line as the user's and, if there is
    one more, the line after it as the bot's. The recording delay and the
    delay before the bot's reply are taken as one atomic step. */
module Playback {
  import opened Types

  datatype Sender = User | Bot

  datatype Message = Message(sender: Sender, text: string, translation: string)

  /** The message log and the index of the last dialogue line played. */
  datatype Playback = Playback(messages: seq<Message>, step: nat)

  function LineMessage(sender: Sender, line: ConversationLine): Message {
    Message(sender, line.text, line.translation)
  }

  /** Opening the screen: the first conversation's first line, from the
      bot, at step 0. Without a conversation, or with an empty dialogue,
      the screen reads a field of `undefined` and there is no playback. */
  function Open(conversations: seq<Conversation>): (r: Option<Playback>)
    ensures r.Some? <==> |conversations| > 0 && |conversations[0].dialogue| > 0
    ensures r.Some? ==>
      r.value.step == 0 && r.value.messages == [LineMessage(Bot, conversations[0].dialogue[0])]
  {
    if |conversations| == 0 || |conversations[0].dialogue| == 0 then None
    else Some(Playback([LineMessage(Bot, conversations[0].dialogue[0])], 0))
  }

  /** The record button is offered while a line after `step` remains. */
  function CanRecord(p: Playback, dialogue: seq<ConversationLine>): (b: bool)
    ensures Consistent(p, dialogue) ==> (b <==> |p.messages| < |dialogue|)
  {
    p.step < |dialogue| - 1
  }

  /** `handleRecord`, with both timers taken as elapsed. */
  function Record(p: Playback, dialogue: seq<ConversationLine>): (r: Playback)
    ensures !CanRecord(p, dialogue) ==> r == p
    ensures CanRecord(p, dialogue) ==>
      && |r.messages| > |p.messages|
      && r.messages[..|p.messages|] == p.messages
      && r.messages[|p.messages|] == LineMessage(User, dialogue[p.step + 1])
      && r.step > p.step
    ensures CanRecord(p, dialogue) && p.step + 2 < |dialogue| ==>
      r.messages == p.messages + [LineMessage(User, dialogue[p.step + 1]), LineMessage(Bot, dialogue[p.step + 2])]
      && r.step == p.step + 2
    ensures CanRecord(p, dialogue) && p.step + 2 >= |dialogue| ==>
      r.messages == p.messages + [LineMessage(User, dialogue[p.step + 1])] && r.step == p.step + 1
  {
    var next := p.step + 1;
    if next < |dialogue| then
      var withUser := p.messages + [LineMessage(User, dialogue[next])];
      if next + 1 < |dialogue| then Playback(withUser + [LineMessage(Bot, dialogue[next + 1])], next + 1)
      else Playback(withUser, next)
    else p
  }

  /** The message the log holds at position `i`: line `i`, spoken by the
      bot at even positions and by the user at odd ones. */
  function Expected(dialogue: seq<ConversationLine>, i: nat): Message
    requires i < |dialogue|
  {
    LineMessage(if i % 2 == 0 then Bot else User, dialogue[i])
  }

  /** The playback invariant: the log is exactly the lines `0..step` of the
      dialogue, in order, alternating bot and user; `step` is a line, and
      it is a bot line unless the dialogue has ended. */
  ghost predicate Consistent(p: Playback, dialogue: seq<ConversationLine>) {
    && p.step < |dialogue|
    && (p.step % 2 == 0 || p.step == |dialogue| - 1)
    && |p.messages| == p.step + 1
    && forall i :: 0 <= i < |p.messages| ==> p.messages[i] == Expected(dialogue, i)
  }

  lemma OpenIsConsistent(conversations: seq<Conversation>)
    requires Open(conversations).Some?
    ensures Consistent(Open(conversations).value, conversations[0].dialogue)
  {
  }

  /** Recording keeps the log in step with the dialogue. */
  lemma RecordKeepsConsistent(p: Playback, dialogue: seq<ConversationLine>)
    requires Consistent(p, dialogue)
    ensures Consistent(Record(p, dialogue), dialogue)
  {
  }

  function RecordTimes(p: Playback, dialogue: seq<ConversationLine>, n: nat): Playback
    decreases n
  {
    if n == 0 then p else RecordTimes(Record(p, dialogue), dialogue, n - 1)
  }

  /** From any consistent state, as many record presses as lines remain
      play the whole script: the log is every line of the dialogue, alternating
      bot and user, and recording is no longer offered. */
  lemma {:induction false} PlaybackPlaysWholeScript(p: Playback, dialogue: seq<ConversationLine>, n: nat)
    requires Consistent(p, dialogue) && p.step + n >= |dialogue| - 1
    ensures var r := RecordTimes(p, dialogue, n);
      && Consistent(r, dialogue)
      && !CanRecord(r, dialogue)
      && |r.messages| == |dialogue|
    decreases n
  {
    if n > 0 {
      RecordKeepsConsistent(p, dialogue);
      var q := Record(p, dialogue);
      assert q.step + (n - 1) >= |dialogue| - 1;
      PlaybackPlaysWholeScript(q, dialogue, n - 1);
    }
  }
}

=== FILE: dictionary.dfy ===
/** The dictionary screen: the search/level filter over the vocabulary and
    the add-word form that builds a new entry from partial input. */
module Dictionary {
  import opened Types
  import opened Seqs
  import opened AppStore

  // ---------------------------------------------------------------------
  // Text helpers

  /** `toLowerCase`, restricted to the ASCII letters; every other character
      is left as it is. */
  function LowerChar(c: char): (r: char)
    ensures 'A' <= c <= 'Z' ==> 'a' <= r <= 'z' && r as int - 'a' as int == c as int - 'A' as int
    ensures !('A' <= c <= 'Z') ==> r == c
  {
    if 'A' <= c <= 'Z' then (c as int - 'A' as int + 'a' as int) as char else c
  }

  function Lower(s: string): (r: string)
    ensures |r| == |s|
    ensures forall i :: 0 <= i < |s| ==> r[i] == LowerChar(s[i])
  {
    seq(|s|, i requires 0 <= i < |s| => LowerChar(s[i]))
  }

  /** Lower-casing twice is lower-casing once. */
  lemma LowerIdempotent(s: string)
    ensures Lower(Lower(s)) == Lower(s)
  {
  }

  /** `String.prototype.includes`: `sub` occurs in `s` at some position. */
  function Includes(s: string, sub: string): (b: bool)
    ensures sub == [] ==> b
    ensures sub <= s ==> b
    ensures b ==> |sub| <= |s|
    decreases |s|
  {
    sub <= s || (|s| > 0 && Includes(s[1..], sub))
  }

  /** `sub` occurs in `s` starting at position `i`. */
  ghost predicate OccursAt(s: string, sub: string, i: int) {
    0 <= i <= |s| - |sub| && s[i..i + |sub|] == sub
  }

  /** `Includes` holds exactly when `sub` occurs in `s` at some position. */
  lemma {:induction false} IncludesIsOccurrence(s: string, sub: string)
    ensures Includes(s, sub) <==> exists i :: OccursAt(s, sub, i)
    decreases |s|
  {
    if sub <= s {
      assert OccursAt(s, sub, 0);
    } else if |s| > 0 {
      IncludesIsOccurrence(s[1..], sub);
      if Includes(s[1..], sub) {
        var i :| OccursAt(s[1..], sub, i);
        OccurrenceInTail(s, sub, i);
      }
      if exists i :: OccursAt(s, sub, i) {
        var i :| OccursAt(s, sub, i);
        if i > 0 {
          OccurrenceAfterHead(s, sub, i);
        }
      }
    }
  }

  /** An occurrence in the tail is an occurrence one place further on. */
  lemma OccurrenceInTail(s: string, sub: string, i: int)
    requires |s| > 0 && OccursAt(s[1..], sub, i)
    ensures OccursAt(s, sub, i + 1)
  {
  }

  /** An occurrence after the first character is one in the tail. */
  lemma OccurrenceAfterHead(s: string, sub: string, i: int)
    requires i > 0 && OccursAt(s, sub, i)
    ensures OccursAt(s[1..], sub, i - 1)
  {
  }

  // ---------------------------------------------------------------------
  // Search

  datatype LevelFilter = All | Only(level: Level)

  /** German and English are compared case-insensitively. */
  predicate GlossMatches(w: Word, term: string) {
    Includes(Lower(w.german), Lower(term)) || Includes(Lower(w.english), Lower(term))
  }

  /** The search test: the German or English term contains the search text
      ignoring case, or the Arabic gloss contains it as typed; and the
      level filter is `All` or names the entry's level. */
  function Matches(w: Word, term: string, filter: LevelFilter): (b: bool)
    ensures b ==> filter.All? || w.level == filter.level
    ensures term == "" ==> (b <==> filter.All? || w.level == filter.level)
  {
    && (GlossMatches(w, term) || Includes(w.arabic, term))
    && (filter.All? || w.level == filter.level)
  }

  function MatchesOf(term: string, filter: LevelFilter): Word -> bool {
    (w: Word) => Matches(w, term, filter)
  }

  /** `filteredWords`: the matching entries, in vocabulary order. */
  function FilteredWords(words: seq<Word>, term: string, filter: LevelFilter): (r: seq<Word>)
    ensures forall w :: w in r <==> w in words && Matches(w, term, filter)
    ensures IsSubsequence(r, words)
    ensures filter.Only? ==> forall w :: w in r ==> w.level == filter.level
    ensures forall w :: multiset(r)[w] == if Matches(w, term, filter) then multiset(words)[w] else 0
  {
    FilterCounts(words, MatchesOf(term, filter));
    Filter(words, MatchesOf(term, filter))
  }

  /** An empty search with the `All` filter lists the whole vocabulary. */
  lemma EmptySearchListsEverything(words: seq<Word>)
    ensures FilteredWords(words, "", All) == words
  {
    forall i | 0 <= i < |words|
      ensures MatchesOf("", All)(words[i])
    {
      assert Lower("") <= Lower(words[i].german);
    }
    FilterKeepsAll(words, MatchesOf("", All));
  }

  /** The German/English part of the test does not depend on the case of
      the search text. */
  lemma GlossMatchIgnoresTermCase(w: Word, term: string)
    ensures GlossMatches(w, Lower(term)) == GlossMatches(w, term)
  {
    LowerIdempotent(term);
  }

  // ---------------------------------------------------------------------
  // The add-word form

  /** The form's partial entry. The form has no inputs for level and
      category; they keep their initial values. */
  datatype WordForm = WordForm(
    german: Option<string>,
    english: Option<string>,
    arabic: Option<string>,
    example: Option<string>,
    level: Level,
    category: Option<string>)

  /** The form as it opens. */
  const EmptyForm := WordForm(None, None, None, None, A1, Some("General"))

  /** One keystroke-level change of an input. */
  datatype Edit = SetGerman(v: string) | SetEnglish(v: string) | SetArabic(v: string) | SetExample(v: string)

  /** Each input's change handler sets that input to the typed text and
      keeps the other inputs, the level and the category. */
  function ApplyEdit(f: WordForm, e: Edit): (r: WordForm)
    ensures r.level == f.level && r.category == f.category
    ensures e.SetGerman? ==> r == f.(german := Some(e.v))
    ensures e.SetEnglish? ==> r == f.(english := Some(e.v))
    ensures e.SetArabic? ==> r == f.(arabic := Some(e.v))
    ensures e.SetExample? ==> r == f.(example := Some(e.v))
  {
    match e
    case SetGerman(v) => f.(german := Some(v))
    case SetEnglish(v) => f.(english := Some(v))
    case SetArabic(v) => f.(arabic := Some(v))
    case SetExample(v) => f.(example := Some(v))
  }

  function ApplyEdits(f: WordForm, es: seq<Edit>): (r: WordForm)
    decreases |es|
  {
    if |es| == 0 then f else ApplyEdits(ApplyEdit(f, es[0]), es[1..])
  }

  /** A field counts as filled when it is present and not empty. */
  predicate Filled(x: Option<string>) {
    x.Some? && x.value != ""
  }

  function OrElse(x: Option<string>, default: string): string {
    if Filled(x) then x.value else default
  }

  /** `handleSubmit`: an entry only when German, English and Arabic are
      all filled; the three are copied as typed, a missing example becomes
      empty and a missing category becomes "General". `id` stands for the
      time-based identifier. */
  function Submit(f: WordForm, id: string): (r: Option<Word>)
    ensures r.Some? <==> Filled(f.german) && Filled(f.english) && Filled(f.arabic)
    ensures r.Some? ==>
      && r.value.id == id
      && r.value.german == f.german.value
      && r.value.english == f.english.value
      && r.value.arabic == f.arabic.value
      && r.value.example == (if Filled(f.example) then f.example.value else "")
      && r.value.category == (if Filled(f.category) then f.category.value else "General")
      && r.value.level == f.level
  {
    if Filled(f.german) && Filled(f.english) && Filled(f.arabic) then
      Some(Word(id, f.german.value, f.arabic.value, f.english.value, OrElse(f.example, ""), f.level, OrElse(f.category, "General")))
    else None
  }

  /** Whatever is typed into the form, a submitted entry is at level A1 in
      category "General". */
  lemma {:induction false} SubmittedFromFormIsA1General(es: seq<Edit>, id: string)
    requires Submit(ApplyEdits(EmptyForm, es), id).Some?
    ensures Submit(ApplyEdits(EmptyForm, es), id).value.level == A1
    ensures Submit(ApplyEdits(EmptyForm, es), id).value.category == "General"
  {
    EditsKeepLevelAndCategory(EmptyForm, es);
  }

  /** Typing non-empty German, English and Arabic text into the opened
      form makes it submittable, with exactly that text in the entry. */
  lemma ThreeFieldsMakeFormSubmittable(german: string, english: string, arabic: string, id: string)
    requires german != "" && english != "" && arabic != ""
    ensures var r := Submit(ApplyEdits(EmptyForm, [SetGerman(german), SetEnglish(english), SetArabic(arabic)]), id);
      && r.Some?
      && r.value == Word(id, german, arabic, english, "", A1, "General")
  {
    var es := [SetGerman(german), SetEnglish(english), SetArabic(arabic)];
    var f1 := ApplyEdit(EmptyForm, es[0]);
    var f2 := ApplyEdit(f1, es[1]);
    var f3 := ApplyEdit(f2, es[2]);
    assert ApplyEdits(f3, []) == f3;
    assert ApplyEdits(f2, [es[2]]) == f3 by {
      assert [es[2]][1..] == [];
    }
    assert ApplyEdits(f1, [es[1], es[2]]) == f3 by {
      assert [es[1], es[2]][1..] == [es[2]];
    }
    assert es[1..] == [es[1], es[2]];
  }

  lemma {:induction false} EditsKeepLevelAndCategory(f: WordForm, es: seq<Edit>)
    ensures ApplyEdits(f, es).level == f.level && ApplyEdits(f, es).category == f.category
    decreases |es|
  {
    if |es| > 0 {
      EditsKeepLevelAndCategory(ApplyEdit(f, es[0]), es[1..]);
    }
  }

  /** Saving the form: the store's `addWord` with the built entry, or
      nothing when a required field is missing. */
  function SaveForm(s: AppState, f: WordForm, id: string): (r: AppState)
    ensures Submit(f, id).None? ==> r == s
    ensures Submit(f, id).Some? ==> r.words == [Submit(f, id).value] + s.words
    ensures r.learned == s.learned && r.streak == s.streak
  {
    match Submit(f, id)
    case None => s
    case Some(w) => AddWord(s, w)
  }

  /** Saving a form under a fresh id and then deleting that id from the
      list leaves the store as it was. */
  lemma SaveThenDeleteRestores(s: AppState, f: WordForm, id: string)
    requires id !in Ids(s.words)
    ensures DeleteWord(SaveForm(s, f, id), id) == s
  {
    match Submit(f, id)
    case None => DeleteAbsentIdIsNoOp(s, id);
    case Some(w) => AddThenDeleteRestores(s, w);
  }
}

=== FILE: learn.dfy ===
/** The flashcard session of the Learn screen: a walk over the entries not
    yet learned, driven by "known" / "not yet" presses.

    The queue `WordsToLearn` is recomputed from the store on every render,
    so marking a card learned shrinks the queue under the session's index.
    `HandleNext` is modelled exactly as written, including that effect;
    `HandleNextFixed` is the corrected transition (see the README's
    findings). Timers are taken as atomic: the delayed index update lands
    in the same step as the press. */
module Learn {
  import opened Types
  import opened Seqs
  import opened AppStore

  /** Entries whose id has not been marked learned, in vocabulary order. */
  function WordsToLearn(words: seq<Word>, learned: seq<string>): (r: seq<Word>)
    ensures forall w :: w in r <==> w in words && w.id !in learned
    ensures IsSubsequence(r, words)
  {
    Filter(words, NotLearned(learned))
  }

  function NotLearned(learned: seq<string>): Word -> bool {
    (w: Word) => w.id !in learned
  }

  /** The queue holds every copy of each unlearned entry of the vocabulary
      (duplicates included) and no copy of a learned one. */
  lemma WordsToLearnCounts(words: seq<Word>, learned: seq<string>)
    ensures forall w :: multiset(WordsToLearn(words, learned))[w] ==
                        (if w.id !in learned then multiset(words)[w] else 0)
  {
    FilterCounts(words, NotLearned(learned));
  }

  /** Ephemeral session state; a fresh visit starts at `Start`. */
  datatype Session = Session(index: nat, flipped: bool, complete: bool)

  const Start := Session(0, false, false)

  /** What the screen shows. `Broken` is the card screen with an index past
      the end of the queue, where the render reads a field of `undefined`. */
  datatype Screen = AllDone | Finished | Card(word: Word) | Broken

  function Queue(app: AppState): seq<Word> {
    WordsToLearn(app.words, app.learned)
  }

  /** The three render branches, in the order the component tests them. */
  function View(s: Session, app: AppState): (r: Screen)
    ensures r == AllDone <==> |Queue(app)| == 0 && !s.complete
    ensures r == Finished <==> s.complete
    ensures r.Card? <==> !s.complete && s.index < |Queue(app)|
    ensures r.Card? ==> r.word == Queue(app)[s.index] && r.word.id !in app.learned
  {
    var todo := Queue(app);
    if |todo| == 0 && !s.complete then AllDone
    else if s.complete then Finished
    else if s.index < |todo| then Card(todo[s.index])
    else Broken
  }

  datatype Outcome = Outcome(session: Session, app: AppState)

  /** `handleNext(known)` as written: mark the current card if known, turn
      the card face down, then advance while the index is below the
      pre-press queue length minus one, else finish and count the streak. */
  function HandleNext(s: Session, app: AppState, known: bool): (r: Outcome)
    ensures !r.session.flipped && r.app.words == app.words
    ensures known && s.index < |Queue(app)| ==>
      r.app.learned == app.learned + [Queue(app)[s.index].id]
    ensures !known || s.index >= |Queue(app)| ==> r.app.learned == app.learned
    ensures s.index + 1 < |Queue(app)| ==>
      r.session.index == s.index + 1 && r.session.complete == s.complete && r.app.streak == app.streak
    ensures s.index + 1 >= |Queue(app)| ==>
      r.session.index == s.index && r.session.complete && r.app.streak == app.streak + 1
  {
    var todo := Queue(app);
    var app1 := if known && s.index < |todo| then MarkAsLearned(app, todo[s.index].id) else app;
    if s.index < |todo| - 1 then Outcome(Session(s.index + 1, false, s.complete), app1)
    else Outcome(Session(s.index, false, true), IncrementStreak(app1))
  }

  /** The two buttons exist only on the card screen. */
  function Press(s: Session, app: AppState, known: bool): (r: Outcome)
    ensures !View(s, app).Card? ==> r == Outcome(s, app)
    ensures View(s, app).Card? ==> !r.session.flipped && r.app.words == app.words
    ensures r.app.streak == app.streak || r.app.streak == app.streak + 1
    ensures forall x :: x in app.learned ==> x in r.app.learned
  {
    if View(s, app).Card? then HandleNext(s, app, known) else Outcome(s, app)
  }

  /** Tapping the card (present only on the card screen) turns it over. */
  function Tap(s: Session, app: AppState): (r: Session)
    ensures View(s, app).Card? ==> r == s.(flipped := !s.flipped)
    ensures !View(s, app).Card? ==> r == s
    ensures r.index == s.index && r.complete == s.complete
  {
    if View(s, app).Card? then s.(flipped := !s.flipped) else s
  }

  /** Two taps on the same screen give back the session as it was. */
  lemma TapTwiceRestores(s: Session, app: AppState)
    ensures Tap(Tap(s, app), app) == s
  {
  }

  /** A press on the card screen: "known" marks exactly the shown card,
      "not yet" leaves the learned ids alone; the vocabulary is untouched;
      the card is always face down afterwards. Before the last card the
      index moves on by one and the session stays open; on the last card
      the session completes and the streak goes up by exactly one. */
  lemma PressOnCard(s: Session, app: AppState, known: bool)
    requires View(s, app).Card?
    ensures var r := Press(s, app, known);
      && !r.session.flipped
      && r.app.words == app.words
      && (known ==> r.app.learned == app.learned + [View(s, app).word.id])
      && (!known ==> r.app.learned == app.learned)
      && (s.index < |Queue(app)| - 1 ==>
            r.session.index == s.index + 1 && !r.session.complete && r.app.streak == app.streak)
      && (s.index == |Queue(app)| - 1 ==>
            r.session.complete && r.app.streak == app.streak + 1)
  {
  }

  /** Off the card screen (all done, or finished) there is no transition. */
  lemma NoPressOffCard(s: Session, app: AppState, known: bool)
    requires View(s, app) == AllDone || View(s, app) == Finished
    ensures Press(s, app, known) == Outcome(s, app)
  {
  }

  /** "Not yet" never leads to the broken screen. */
  lemma NotYetKeepsCardInRange(s: Session, app: AppState)
    requires View(s, app).Card?
    ensures var r := Press(s, app, false);
      r.app == app || r.app == IncrementStreak(app)
    ensures View(Press(s, app, false).session, Press(s, app, false).app) != Broken
  {
  }

  /** Marking one id learned removes exactly the entries with that id from
      the queue. */
  lemma {:induction false} MarkShrinksQueue(words: seq<Word>, learned: seq<string>, id: string)
    ensures WordsToLearn(words, learned + [id]) == WithoutId(WordsToLearn(words, learned), id)
    decreases |words|
  {
    if |words| > 0 {
      MarkShrinksQueue(words[1..], learned, id);
    }
  }

  /** An open session whose index is inside the queue shows the card at
      that index. */
  lemma CardAtIndex(s: Session, app: AppState)
    requires !s.complete && s.index < |Queue(app)|
    ensures View(s, app) == Card(Queue(app)[s.index])
  {
  }

  /** One press before the last card of the queue, as a single outcome:
      the index moves on by one with the card face down, and "known" marks
      the shown card. */
  lemma PressBeforeLast(s: Session, app: AppState, known: bool)
    requires !s.complete && s.index + 1 < |Queue(app)|
    ensures Press(s, app, known) == Outcome(Session(s.index + 1, false, false),
      if known then MarkAsLearned(app, Queue(app)[s.index].id) else app)
  {
    assert View(s, app).Card?;
  }

  /** A press on the last card of the queue, as a single outcome: the
      session completes with the card face down, "known" marks the card,
      and the streak rises by one. */
  lemma PressOnLast(s: Session, app: AppState, known: bool)
    requires !s.complete && s.index + 1 == |Queue(app)|
    ensures Press(s, app, known) == Outcome(Session(s.index, false, true),
      IncrementStreak(if known then MarkAsLearned(app, Queue(app)[s.index].id) else app))
  {
  }

  /** What "known" really does, for a vocabulary with unique ids: the shown
      card leaves the queue, yet the index still moves on by one. So once
      the delayed index update lands the card after it is skipped and, on
      the second-to-last card, the screen breaks. */
  lemma KnownSkipsNextCard(s: Session, app: AppState)
    requires View(s, app).Card? && IdsUnique(app.words)
    requires s.index < |Queue(app)| - 1
    ensures var r := Press(s, app, true);
      var todo := Queue(app);
      && Queue(r.app) == todo[..s.index] + todo[s.index + 1..]
      && r.session.index == s.index + 1
      && (s.index + 2 < |todo| ==> View(r.session, r.app) == Card(todo[s.index + 2]))
      && (s.index + 2 == |todo| ==> View(r.session, r.app) == Broken)
  {
    var todo := Queue(app);
    PressBeforeLast(s, app, true);
    KnownRemovesShownCard(app, s.index);
    var q := todo[..s.index] + todo[s.index + 1..];
    if s.index + 2 < |todo| {
      assert q[s.index + 1] == todo[s.index + 2];
    }
  }

  /** For a vocabulary with unique ids, marking the `i`-th card of the
      queue learned removes just that card from the queue. */
  lemma KnownRemovesShownCard(app: AppState, i: nat)
    requires IdsUnique(app.words) && i < |Queue(app)|
    ensures Queue(MarkAsLearned(app, Queue(app)[i].id)) == Queue(app)[..i] + Queue(app)[i + 1..]
  {
    var todo := Queue(app);
    assert IdsUnique(todo) by {
      SubsequenceKeepsUniqueIds(todo, app.words);
    }
    assert todo[i].id !in app.learned;
    MarkShrinksQueue(app.words, app.learned, todo[i].id);
    WithoutUniqueId(todo, i);
  }

  lemma {:induction false} SubsequenceKeepsUniqueIds(a: seq<Word>, b: seq<Word>)
    requires IsSubsequence(a, b) && IdsUnique(b)
    ensures IdsUnique(a)
    decreases |b|
  {
    if |a| > 0 {
      assert IdsUnique(b[1..]);
      if a[0] == b[0] && IsSubsequence(a[1..], b[1..]) {
        SubsequenceKeepsUniqueIds(a[1..], b[1..]);
        forall j | 0 < j < |a|
          ensures a[0].id != a[j].id
        {
          SubsequenceMembers(a[1..], b[1..], j - 1);
          var k :| 0 <= k < |b[1..]| && b[1..][k] == a[j];
          assert b[k + 1] == a[j];
        }
      } else {
        SubsequenceKeepsUniqueIds(a, b[1..]);
      }
    }
  }

  lemma {:induction false} SubsequenceMembers<T>(a: seq<T>, b: seq<T>, j: nat)
    requires IsSubsequence(a, b) && j < |a|
    ensures exists k :: 0 <= k < |b| && b[k] == a[j]
    decreases |b|
  {
    if a[0] == b[0] && IsSubsequence(a[1..], b[1..]) {
      if j == 0 {
        assert b[0] == a[0];
      } else {
        SubsequenceMembers(a[1..], b[1..], j - 1);
        var k :| 0 <= k < |b[1..]| && b[1..][k] == a[1..][j - 1];
        assert b[k + 1] == a[j];
      }
    } else {
      SubsequenceMembers(a, b[1..], j);
      var k :| 0 <= k < |b[1..]| && b[1..][k] == a[j];
      assert b[k + 1] == a[j];
    }
  }

  /** The sequence of presses of one visit. */
  function RunPresses(s: Session, app: AppState, presses: seq<bool>): (r: Outcome)
    decreases |presses|
  {
    if |presses| == 0 then Outcome(s, app)
    else
      var o := Press(s, app, presses[0]);
      RunPresses(o.session, o.app, presses[1..])
  }

  /** Within one visit the streak rises exactly once, at completion, and is
      otherwise untouched; the vocabulary never changes and no learned id
      is dropped. */
  lemma {:induction false} StreakOncePerSession(s: Session, app: AppState, base: nat, presses: seq<bool>)
    requires app.streak == (if s.complete then base + 1 else base)
    ensures var r := RunPresses(s, app, presses);
      && r.app.streak == (if r.session.complete then base + 1 else base)
      && (s.complete ==> r.session.complete)
      && r.app.words == app.words
      && (forall x :: x in app.learned ==> x in r.app.learned)
    decreases |presses|
  {
    if |presses| > 0 {
      var o := Press(s, app, presses[0]);
      StreakOncePerSession(o.session, o.app, base, presses[1..]);
    }
  }

  /** `k` presses of "not yet". */
  function NotYets(k: nat): (r: seq<bool>)
    ensures |r| == k && forall i :: 0 <= i < k ==> !r[i]
    decreases k
  {
    if k == 0 then [] else [false] + NotYets(k - 1)
  }

  /** After `j` presses of "not yet" from an open session, with at least
      `j + 1` cards left, the session is still open at the `j`-th index
      after the start, face down once a press was made, and nothing was
      stored. */
  lemma {:induction false} NotYetAdvances(s: Session, app: AppState, j: nat)
    requires !s.complete && s.index + j < |Queue(app)|
    ensures RunPresses(s, app, NotYets(j)) ==
      Outcome(Session(s.index + j, s.flipped && j == 0, false), app)
    decreases j
  {
    if j == 0 {
      assert NotYets(0) == [];
    } else {
      FirstNotYet(s, app, j);
      NotYetAdvances(Session(s.index + 1, false, false), app, j - 1);
    }
  }

  /** After those `j` presses the card shown is the `j`-th one after the
      starting card. */
  lemma NotYetShowsCard(s: Session, app: AppState, j: nat)
    requires !s.complete && s.index + j < |Queue(app)|
    ensures var m := RunPresses(s, app, NotYets(j));
      && m.app == app && !m.session.complete && m.session.index == s.index + j
      && View(m.session, m.app) == Card(Queue(app)[s.index + j])
  {
    NotYetAdvances(s, app, j);
    CardAtIndex(Session(s.index + j, s.flipped && j == 0, false), app);
  }

  /** The first of `j` "not yet" presses before the last card. */
  lemma FirstNotYet(s: Session, app: AppState, j: nat)
    requires !s.complete && s.index + 1 < |Queue(app)| && j > 0
    ensures RunPresses(s, app, NotYets(j)) ==
      RunPresses(Session(s.index + 1, false, false), app, NotYets(j - 1))
  {
    PressBeforeLast(s, app, false);
    assert NotYets(j)[0] == false && NotYets(j)[1..] == NotYets(j - 1);
  }

  /** Pressing "not yet" on every card of a queue of `n` cards shows the
      cards one by one in queue order, with nothing stored in between, and
      completes after exactly `n` presses, adding one to the streak and
      leaving the learned ids alone. */
  lemma {:induction false} NotYetWalksWholeQueue(s: Session, app: AppState, k: nat)
    requires !s.complete && s.index + k == |Queue(app)| && k > 0
    ensures forall j :: 0 <= j < k ==>
      var m := RunPresses(s, app, NotYets(j));
      && !m.session.complete && m.session.index == s.index + j && m.app == app
      && View(m.session, m.app) == Card(Queue(app)[s.index + j])
    ensures var r := RunPresses(s, app, NotYets(k));
      && r.session.complete
      && r.app == IncrementStreak(app)
    decreases k
  {
    forall j | 0 <= j < k
      ensures var m := RunPresses(s, app, NotYets(j));
        && !m.session.complete && m.session.index == s.index + j && m.app == app
        && View(m.session, m.app) == Card(Queue(app)[s.index + j])
    {
      NotYetShowsCard(s, app, j);
    }
    var o := Press(s, app, false);
    assert NotYets(k)[1..] == NotYets(k - 1);
    if k > 1 {
      NotYetWalksWholeQueue(o.session, o.app, k - 1);
    }
  }

  /** `k` presses of "not yet" followed by one press of "known". */
  function NotYetsThenKnown(k: nat): (r: seq<bool>)
    ensures |r| == k + 1 && r[k] && forall i :: 0 <= i < k ==> !r[i]
    decreases k
  {
    if k == 0 then [true] else [false] + NotYetsThenKnown(k - 1)
  }

  /** "Not yet" up to the last card and "known" on it also completes the
      session: the last card's id is appended to the learned ids and the
      streak rises by one. */
  lemma {:induction false} NotYetsThenKnownCompletes(s: Session, app: AppState, k: nat)
    requires !s.complete && s.index + k + 1 == |Queue(app)|
    ensures RunPresses(s, app, NotYetsThenKnown(k)) ==
      Outcome(Session(|Queue(app)| - 1, false, true),
        app.(learned := app.learned + [Queue(app)[|Queue(app)| - 1].id], streak := app.streak + 1))
    decreases k
  {
    if k == 0 {
      KnownOnLastCompletes(s, app);
    } else {
      FirstNotYetBeforeKnown(s, app, k);
      NotYetsThenKnownCompletes(Session(s.index + 1, false, false), app, k - 1);
    }
  }

  /** The first "not yet" of such a run moves to the next card. */
  lemma FirstNotYetBeforeKnown(s: Session, app: AppState, k: nat)
    requires !s.complete && s.index + 1 < |Queue(app)| && k > 0
    ensures RunPresses(s, app, NotYetsThenKnown(k)) ==
      RunPresses(Session(s.index + 1, false, false), app, NotYetsThenKnown(k - 1))
  {
    PressBeforeLast(s, app, false);
    assert NotYetsThenKnown(k)[0] == false && NotYetsThenKnown(k)[1..] == NotYetsThenKnown(k - 1);
  }

  /** One "known" press on the last card, as a run of presses. */
  lemma KnownOnLastCompletes(s: Session, app: AppState)
    requires !s.complete && s.index + 1 == |Queue(app)|
    ensures RunPresses(s, app, NotYetsThenKnown(0)) ==
      Outcome(Session(|Queue(app)| - 1, false, true),
        app.(learned := app.learned + [Queue(app)[|Queue(app)| - 1].id], streak := app.streak + 1))
  {
    RunOnePress(s, app, true);
    PressOnLast(s, app, true);
    CardAtIndex(s, app);
  }

  lemma RunOnePress(s: Session, app: AppState, known: bool)
    ensures RunPresses(s, app, [known]) == Press(s, app, known)
  {
    assert [known][1..] == [];
  }

  // ---------------------------------------------------------------------
  // Corrected transition

  /** `handleNext` with the index taken against the queue as it is after
      the press: "known" keeps the index (the next card slides into place),
      "not yet" moves it on; the session completes when no card is left at
      that position. */
  function HandleNextFixed(s: Session, app: AppState, known: bool): (r: Outcome)
    ensures !r.session.flipped && r.app.words == app.words
    ensures known && s.index < |Queue(app)| ==>
      r.app.learned == app.learned + [Queue(app)[s.index].id]
    ensures !known || s.index >= |Queue(app)| ==> r.app.learned == app.learned
    ensures !r.session.complete ==>
      r.session.index < |Queue(r.app)| && r.app.streak == app.streak
    ensures !s.complete && r.session.complete ==> r.app.streak == app.streak + 1
    ensures r.app.streak == app.streak || r.app.streak == app.streak + 1
  {
    var todo := Queue(app);
    var app1 := if known && s.index < |todo| then MarkAsLearned(app, todo[s.index].id) else app;
    var next := if known then s.index else s.index + 1;
    if next < |Queue(app1)| then Outcome(Session(next, false, s.complete), app1)
    else Outcome(Session(s.index, false, true), IncrementStreak(app1))
  }

  function PressFixed(s: Session, app: AppState, known: bool): (r: Outcome)
    ensures !View(s, app).Card? ==> r == Outcome(s, app)
    ensures View(s, app).Card? ==>
      !r.session.flipped && (r.session.complete || r.session.index < |Queue(r.app)|)
    ensures forall x :: x in app.learned ==> x in r.app.learned
  {
    if View(s, app).Card? then HandleNextFixed(s, app, known) else Outcome(s, app)
  }

  /** With the corrected transition a press on the card screen always
      leads to a card or to the finished screen, never past the queue; a
      card is never skipped: after "known" the card shown is the one that
      followed the learned card. */
  lemma FixedNeverBreaks(s: Session, app: AppState, known: bool)
    requires View(s, app).Card?
    ensures var r := PressFixed(s, app, known);
      View(r.session, r.app).Card? || View(r.session, r.app) == Finished
    ensures IdsUnique(app.words) && known && s.index + 1 < |Queue(app)| ==>
      var r := PressFixed(s, app, known);
      View(r.session, r.app) == Card(Queue(app)[s.index + 1])
  {
    if IdsUnique(app.words) && known && s.index + 1 < |Queue(app)| {
      var todo := Queue(app);
      KnownRemovesShownCard(app, s.index);
      var q := todo[..s.index] + todo[s.index + 1..];
      assert q[s.index] == todo[s.index + 1];
    }
  }
}

=== FILE: persistence.dfy ===
/** Mirroring the store into durable key-value storage: the initial load
    with its per-key defaults, the write of each collection under its own
    key whenever it changes, and the text form of the streak counter.

    A stored value is represented by what its text holds: the JSON text of
    an array by the array (`WordList`, `IdList`), any other text by the text
    itself (`Text`), so `Text` never holds the JSON text of an array. The
    representation is not one-to-one: the text "[]" is both `WordList([])`
    and `IdList([])`, and each list loader accepts the other constructor
    when it is empty for that reason. */
module Persistence {
  import opened Types
  import opened AppStore
  import Seed

  const WordsKey: string := "german_app_words"
  const LearnedKey: string := "german_app_learned"
  const StreakKey: string := "german_app_streak"

  /** The content of one storage slot. */
  datatype Stored = WordList(words: seq<Word>) | IdList(ids: seq<string>) | Text(text: string)

  type Storage = map<string, Stored>

  /** `localStorage.getItem`: the slot's content, or nothing. */
  function GetItem(st: Storage, key: string): (r: Option<Stored>)
    ensures r.Some? <==> key in st
    ensures r.Some? ==> r.value == st[key]
  {
    if key in st then Some(st[key]) else None
  }

  /** A stored string is falsy only when it is empty; JSON texts of lists
      never are. */
  predicate Truthy(saved: Option<Stored>) {
    saved.Some? && saved.value != Text("")
  }

  datatype LoadError = Malformed(key: string)

  // ---------------------------------------------------------------------
  // Decimal text of the streak counter

  predicate IsDigit(c: char) {
    '0' <= c <= '9'
  }

  function DigitChar(d: nat): (c: char)
    requires d < 10
    ensures IsDigit(c) && c as int - '0' as int == d
  {
    ('0' as int + d) as char
  }

  /** `Number.prototype.toString` on a non-negative integer: its decimal
      numeral, with no leading zero. */
  function NatToString(n: nat): (r: string)
    ensures |r| > 0
    ensures forall i :: 0 <= i < |r| ==> IsDigit(r[i])
    ensures |r| > 1 ==> r[0] != '0'
    decreases n
  {
    if n < 10 then [DigitChar(n)] else NatToString(n / 10) + [DigitChar(n % 10)]
  }

  /** Value of a string of decimal digits. */
  function DigitsValue(ds: string): nat
    requires forall i :: 0 <= i < |ds| ==> IsDigit(ds[i])
    decreases |ds|
  {
    if |ds| == 0 then 0
    else
      assert IsDigit(ds[|ds| - 1]);
      DigitsValue(ds[..|ds| - 1]) * 10 + (ds[|ds| - 1] as int - '0' as int)
  }

  /** Length of the run of decimal digits that starts `s`. */
  function DigitRun(s: string): (k: nat)
    ensures k <= |s|
    ensures forall i :: 0 <= i < k ==> IsDigit(s[i])
    ensures k < |s| ==> !IsDigit(s[k])
    decreases |s|
  {
    if |s| > 0 && IsDigit(s[0]) then 1 + DigitRun(s[1..]) else 0
  }

  predicate IsHexDigit(c: char) {
    IsDigit(c) || 'a' <= c <= 'f' || 'A' <= c <= 'F'
  }

  /** Value of one hexadecimal digit, either case. */
  function HexDigitValue(c: char): (v: nat)
    requires IsHexDigit(c)
    ensures v < 16
    ensures IsDigit(c) ==> v == c as int - '0' as int
    ensures !IsDigit(c) ==> v >= 10
  {
    if IsDigit(c) then c as int - '0' as int
    else if 'a' <= c <= 'f' then c as int - 'a' as int + 10
    else c as int - 'A' as int + 10
  }

  /** Value of a string of hexadecimal digits. */
  function HexDigitsValue(ds: string): nat
    requires forall i :: 0 <= i < |ds| ==> IsHexDigit(ds[i])
    decreases |ds|
  {
    if |ds| == 0 then 0
    else
      assert IsHexDigit(ds[|ds| - 1]);
      HexDigitsValue(ds[..|ds| - 1]) * 16 + HexDigitValue(ds[|ds| - 1])
  }

  /** Length of the run of hexadecimal digits that starts `s`. */
  function HexDigitRun(s: string): (k: nat)
    ensures k <= |s|
    ensures forall i :: 0 <= i < k ==> IsHexDigit(s[i])
    ensures k < |s| ==> !IsHexDigit(s[k])
    decreases |s|
  {
    if |s| > 0 && IsHexDigit(s[0]) then 1 + HexDigitRun(s[1..]) else 0
  }

  /** The text starts with `0x` or `0X`, which `parseInt` without a radix
      takes as a request for base 16. */
  predicate HasHexPrefix(s: string) {
    |s| >= 2 && s[0] == '0' && (s[1] == 'x' || s[1] == 'X')
  }

  /** `parseInt` without a radix: after a `0x`/`0X` prefix, the value of
      the hexadecimal digits that follow it; otherwise the value of the
      leading decimal digits; nothing (NaN) when no digit is there. */
  function ParseInt(s: string): (r: Option<nat>)
    ensures HasHexPrefix(s) ==> (r.Some? <==> |s| > 2 && IsHexDigit(s[2]))
    ensures !HasHexPrefix(s) ==> (r.Some? <==> |s| > 0 && IsDigit(s[0]))
  {
    if HasHexPrefix(s) then
      var k := HexDigitRun(s[2..]);
      if k == 0 then None else Some(HexDigitsValue(s[2..][..k]))
    else
      var k := DigitRun(s);
      if k == 0 then None else Some(DigitsValue(s[..k]))
  }

  /** The prefix changes the base: "0x10" is sixteen, "0X1F" thirty-one,
      a bare "0x" or "0xg" is NaN, while "010" is still ten. */
  lemma ParseIntReadsHexPrefix()
    ensures ParseInt("0x10") == Some(16)
    ensures ParseInt("0X1F") == Some(31)
    ensures ParseInt("0x") == None && ParseInt("0xg") == None
    ensures ParseInt("010") == Some(10)
  {
    assert "0x10"[2..] == "10" && HexDigitRun("10") == 2 && "10"[..2] == "10";
    assert "10"[..1] == "1" && "1"[..0] == "";
    assert HexDigitsValue("1") == 1;
    assert HexDigitsValue("10") == 16;
    assert "0X1F"[2..] == "1F" && HexDigitRun("1F") == 2 && "1F"[..2] == "1F";
    assert "1F"[..1] == "1";
    assert HexDigitsValue("1F") == 31;
    assert DigitRun("010") == 3;
    assert "010"[..3] == "010";
    assert "010"[..2] == "01";
    assert "01"[..1] == "0";
    assert HasHexPrefix("0x") && |"0x"| == 2;
    assert HasHexPrefix("0xg") && "0xg"[2] == 'g' && !IsHexDigit('g');
  }

  lemma {:induction false} DigitsValueOfNatToString(n: nat)
    ensures DigitsValue(NatToString(n)) == n
    decreases n
  {
    var r := NatToString(n);
    if n < 10 {
    } else {
      DigitsValueOfNatToString(n / 10);
      assert r[..|r| - 1] == NatToString(n / 10);
    }
  }

  /** A run of digits filling the whole string is the whole string. */
  lemma DigitRunOfDigits(s: string)
    requires forall i :: 0 <= i < |s| ==> IsDigit(s[i])
    ensures DigitRun(s) == |s|
  {
  }

  /** Writing the streak with `toString` and reading it back with
      `parseInt` returns the streak, for every value. */
  lemma StreakTextRoundTrip(n: nat)
    ensures ParseInt(NatToString(n)) == Some(n)
    ensures NatToString(n) != ""
  {
    var r := NatToString(n);
    assert !HasHexPrefix(r);
    DigitRunOfDigits(r);
    assert r[..|r|] == r;
    DigitsValueOfNatToString(n);
  }

  // ---------------------------------------------------------------------
  // Initial load, one key at a time

  /** The vocabulary slot: bundled words when absent or empty. A list of
      ids can only be read as vocabulary when it is empty (both are `[]`). */
  function LoadWords(saved: Option<Stored>): (r: Result<seq<Word>, LoadError>)
    ensures !Truthy(saved) ==> r == Ok(Seed.DailyWords)
    ensures saved == Some(WordList([])) ==> r == Ok([])
  {
    if !Truthy(saved) then Ok(Seed.DailyWords)
    else match saved.value
      case WordList(ws) => Ok(ws)
      case IdList(ids) => if ids == [] then Ok([]) else Err(Malformed(WordsKey))
      case Text(_) => Err(Malformed(WordsKey))
  }

  /** The learned slot: empty when absent or empty. */
  function LoadLearned(saved: Option<Stored>): (r: Result<seq<string>, LoadError>)
    ensures !Truthy(saved) ==> r == Ok([])
  {
    if !Truthy(saved) then Ok([])
    else match saved.value
      case IdList(ids) => Ok(ids)
      case WordList(ws) => if ws == [] then Ok([]) else Err(Malformed(LearnedKey))
      case Text(_) => Err(Malformed(LearnedKey))
  }

  /** The streak slot: zero when absent or empty, else `parseInt` of its
      text; a text `parseInt` reads as NaN is an error. */
  function LoadStreak(saved: Option<Stored>): (r: Result<nat, LoadError>)
    ensures !Truthy(saved) ==> r == Ok(0)
    ensures r.Err? <==> Truthy(saved) && (!saved.value.Text? || ParseInt(saved.value.text).None?)
  {
    if !Truthy(saved) then Ok(0)
    else match saved.value
      case Text(t) => (match ParseInt(t) case Some(n) => Ok(n) case None => Err(Malformed(StreakKey)))
      case _ => Err(Malformed(StreakKey))
  }

  /** The three `useState` initialisers of the provider. */
  function Load(st: Storage): (r: Result<AppState, LoadError>)
    ensures r.Ok? <==>
      LoadWords(GetItem(st, WordsKey)).Ok? &&
      LoadLearned(GetItem(st, LearnedKey)).Ok? &&
      LoadStreak(GetItem(st, StreakKey)).Ok?
  {
    match LoadWords(GetItem(st, WordsKey))
    case Err(e) => Err(e)
    case Ok(ws) =>
      match LoadLearned(GetItem(st, LearnedKey))
      case Err(e) => Err(e)
      case Ok(ids) =>
        match LoadStreak(GetItem(st, StreakKey))
        case Err(e) => Err(e)
        case Ok(n) => Ok(AppState(ws, ids, n))
  }

  /** Empty storage, as on first launch, loads the bundled words, no
      learned ids and a zero streak. */
  lemma FirstLaunchDefaults()
    ensures Load(map[]) == Ok(AppState(Seed.DailyWords, [], 0))
  {
  }

  /** Each key is loaded on its own: removing any one key from a loadable
      storage resets exactly that collection to its default. */
  lemma AbsentKeyResetsOnlyItsCollection(st: Storage)
    requires Load(st).Ok?
    ensures Load(st - {WordsKey}) == Ok(Load(st).value.(words := Seed.DailyWords))
    ensures Load(st - {LearnedKey}) == Ok(Load(st).value.(learned := []))
    ensures Load(st - {StreakKey}) == Ok(Load(st).value.(streak := 0))
  {
  }

  // ---------------------------------------------------------------------
  // Writing back

  /** The storage holds exactly the serialised form of `s` under the three
      keys. */
  ghost predicate Mirrors(st: Storage, s: AppState) {
    && GetItem(st, WordsKey) == Some(WordList(s.words))
    && GetItem(st, LearnedKey) == Some(IdList(s.learned))
    && GetItem(st, StreakKey) == Some(Text(NatToString(s.streak)))
  }

  /** The three persistence effects: each collection that changed from
      `before` to `after` is written under its own key, and nothing else in
      the storage is touched. */
  function Persist(st: Storage, before: AppState, after: AppState): (r: Storage)
    ensures forall k :: k in st && k != WordsKey && k != LearnedKey && k != StreakKey ==> k in r && r[k] == st[k]
    ensures forall k :: k in r ==> k in st || k == WordsKey || k == LearnedKey || k == StreakKey
    ensures GetItem(r, WordsKey) == if after.words != before.words then Some(WordList(after.words)) else GetItem(st, WordsKey)
    ensures GetItem(r, LearnedKey) == if after.learned != before.learned then Some(IdList(after.learned)) else GetItem(st, LearnedKey)
    ensures GetItem(r, StreakKey) == if after.streak != before.streak then Some(Text(NatToString(after.streak))) else GetItem(st, StreakKey)
  {
    var st1 := if after.words != before.words then st[WordsKey := WordList(after.words)] else st;
    var st2 := if after.learned != before.learned then st1[LearnedKey := IdList(after.learned)] else st1;
    if after.streak != before.streak then st2[StreakKey := Text(NatToString(after.streak))] else st2
  }

  /** The effects all run once when the provider mounts. */
  function WriteAll(st: Storage, s: AppState): (r: Storage)
    ensures Mirrors(r, s)
    ensures forall k :: k in st && k != WordsKey && k != LearnedKey && k != StreakKey ==> k in r && r[k] == st[k]
  {
    st[WordsKey := WordList(s.words)][LearnedKey := IdList(s.learned)][StreakKey := Text(NatToString(s.streak))]
  }

  /** Reading back a mirrored storage yields the state it mirrors. */
  lemma LoadOfMirror(st: Storage, s: AppState)
    requires Mirrors(st, s)
    ensures Load(st) == Ok(s)
  {
    StreakTextRoundTrip(s.streak);
  }

  /** The provider: its state and the storage behind it. */
  datatype Store = Store(state: AppState, storage: Storage)

  /** Mounting the provider: load every key, then write every key back. */
  function Mount(st: Storage): (r: Result<Store, LoadError>)
    ensures r.Ok? <==> Load(st).Ok?
    ensures r.Ok? ==> r.value.state == Load(st).value && Mirrors(r.value.storage, r.value.state)
  {
    match Load(st)
    case Err(e) => Err(e)
    case Ok(s) => Ok(Store(s, WriteAll(st, s)))
  }

  /** One store action followed by its persistence effects. */
  function Apply(store: Store, a: Action): (r: Store)
    ensures r.state == Step(store.state, a)
    ensures Mirrors(store.storage, store.state) ==> Mirrors(r.storage, r.state)
  {
    var next := Step(store.state, a);
    Store(next, Persist(store.storage, store.state, next))
  }

  function ApplyAll(store: Store, actions: seq<Action>): (r: Store)
    ensures r.state == Run(store.state, actions)
    decreases |actions|
  {
    if |actions| == 0 then store else ApplyAll(Apply(store, actions[0]), actions[1..])
  }

  /** After mounting and any sequence of store actions, a restart (a fresh
      load of the storage) recovers exactly the in-memory state. */
  lemma {:induction false} RestartRecoversState(st: Storage, actions: seq<Action>)
    requires Mount(st).Ok?
    ensures Load(ApplyAll(Mount(st).value, actions).storage) == Ok(Run(Load(st).value, actions))
  {
    MirrorsAfterAll(Mount(st).value, actions);
    LoadOfMirror(ApplyAll(Mount(st).value, actions).storage, ApplyAll(Mount(st).value, actions).state);
  }

  lemma {:induction false} MirrorsAfterAll(store: Store, actions: seq<Action>)
    requires Mirrors(store.storage, store.state)
    ensures Mirrors(ApplyAll(store, actions).storage, ApplyAll(store, actions).state)
    decreases |actions|
  {
    if |actions| > 0 {
      MirrorsAfterAll(Apply(store, actions[0]), actions[1..]);
    }
  }
}

=== FILE: scenarios.dfy ===
/** Concrete runs over the bundled data. */
module Scenarios {
  import opened Types
  import opened Seqs
  import opened AppStore
  import opened Seed
  import opened Learn
  import Playback

  /** The state of a first launch. */
  const Fresh := AppState(DailyWords, [], 0)

  /** Nothing learned: the queue is the whole vocabulary. */
  lemma QueueOfNothingLearned(words: seq<Word>)
    ensures WordsToLearn(words, []) == words
  {
    FilterKeepsAll(words, NotLearned([]));
  }

  /** After "w1" is marked learned on a first launch, the learned ids are
      exactly ["w1"] and the queue is the other nine bundled words in order. */
  lemma QueueAfterLearningW1()
    ensures MarkAsLearned(Fresh, "w1").learned == ["w1"]
    ensures Queue(MarkAsLearned(Fresh, "w1")) == DailyWords[1..]
  {
    DailyWordsWellFormed();
    MarkShrinksQueue(DailyWords, [], "w1");
    assert [] + ["w1"] == ["w1"];
    QueueOfNothingLearned(DailyWords);
    WithoutUniqueId(DailyWords, 0);
    assert DailyWords[..0] + DailyWords[1..] == DailyWords[1..];
  }

  /** First launch, "w1" marked learned, then "not yet" on each of the nine
      remaining cards: the ninth press completes the session with the
      streak at one and the learned ids still ["w1"]. */
  lemma LearnW1ThenNineNotYet()
    ensures var r := RunPresses(Start, MarkAsLearned(Fresh, "w1"), NotYets(9));
      r.session.complete && r.app.streak == 1 && r.app.learned == ["w1"]
  {
    var app := MarkAsLearned(Fresh, "w1");
    QueueAfterLearningW1();
    assert |Queue(app)| == 9;
    NotYetWalksWholeQueue(Start, app, 9);
    assert RunPresses(Start, app, NotYets(9)).app == IncrementStreak(app);
  }

  /** First launch, "w1" marked learned, "not yet" on eight cards and
      "known" on the last one, "w10": the ninth press also completes the
      session, with the streak at one and "w10" learned after "w1". */
  lemma LearnW1EightNotYetThenKnown()
    ensures var r := RunPresses(Start, MarkAsLearned(Fresh, "w1"), NotYetsThenKnown(8));
      r.session.complete && r.app.streak == 1 && r.app.learned == ["w1", "w10"]
  {
    LastCardAfterW1();
    QueueAfterLearningW1();
    KnownOnLastOfNine(MarkAsLearned(Fresh, "w1"));
  }

  /** The same run for any state whose queue has nine cards ending in "w10"
      and whose only learned id is "w1". */
  lemma KnownOnLastOfNine(app: AppState)
    requires |Queue(app)| == 9 && Queue(app)[8].id == "w10"
    requires app.learned == ["w1"] && app.streak == 0
    ensures var r := RunPresses(Start, app, NotYetsThenKnown(8));
      r.session.complete && r.app.streak == 1 && r.app.learned == ["w1", "w10"]
  {
    NotYetsThenKnownCompletes(Start, app, 8);
    assert ["w1"] + ["w10"] == ["w1", "w10"];
  }

  /** With "w1" learned the queue has nine cards and the last is "w10". */
  lemma LastCardAfterW1()
    ensures |Queue(MarkAsLearned(Fresh, "w1"))| == 9
    ensures Queue(MarkAsLearned(Fresh, "w1"))[8].id == "w10"
  {
    QueueAfterLearningW1();
    assert DailyWords[1..][8] == W10;
  }

  /** Two unlearned cards, "known" on the first: the index moves to 1 while
      the queue shrinks to one card, so the card screen reads past its end. */
  lemma KnownOnFirstOfTwoBreaks()
    ensures var app := AppState([W1, W2], [], 0);
      && View(Start, app) == Card(W1)
      && View(Press(Start, app, true).session, Press(Start, app, true).app) == Broken
  {
  }

  /** Three unlearned cards, "known" on the first: once the delayed index
      update has landed the third card is shown, and the second is skipped
      without a press. In the code the second card is on screen until that
      update; the press is one atomic step here, so it is never shown. */
  lemma KnownOnFirstOfThreeSkipsSecond()
    ensures var app := AppState([W1, W2, W3], [], 0);
      View(Press(Start, app, true).session, Press(Start, app, true).app) == Card(W3)
  {
    var app := AppState([W1, W2, W3], [], 0);
    QueueOfNothingLearned([W1, W2, W3]);
    assert IdsUnique([W1, W2, W3]);
    KnownSkipsNextCard(Start, app);
  }

  const W11 := Word("w11", "das Buch", "الكتاب", "The book", "", A1, "General")

  /** Adding "w11" to the bundled vocabulary and deleting it again leaves
      the vocabulary as it was. */
  lemma AddThenDeleteW11()
    ensures DeleteWord(AddWord(Fresh, W11), "w11") == Fresh
  {
    W11IsFresh();
    AddThenDeleteRestores(Fresh, W11);
  }

  /** No bundled word carries the id "w11". */
  lemma W11IsFresh()
    ensures "w11" !in Ids(DailyWords)
  {
    var ids := ["w1", "w2", "w3", "w4", "w5", "w6", "w7", "w8", "w9", "w10"];
    assert forall i :: 0 <= i < 10 ==> DailyWords[i].id == ids[i];
    assert "w11" !in ids;
    AbsentFromIds(DailyWords, "w11");
  }

  /** Deleting a learned word keeps its id among the learned ids. */
  lemma DeleteLeavesOrphanedLearnedId()
    ensures var s := DeleteWord(MarkAsLearned(Fresh, "w1"), "w1");
      "w1" in s.learned && "w1" !in Ids(s.words)
  {
  }

  /** The bundled conversation: opening shows line 0 from the bot, one
      record press adds line 1 from the user and line 2 from the bot, after
      which the conversation is finished. */
  lemma BundledConversationInOnePress()
    ensures var d := GettingToKnow.dialogue;
      var p := Playback.Open(Conversations).value;
      var q := Playback.Record(p, d);
      && p.messages == [Playback.LineMessage(Playback.Bot, d[0])]
      && q.messages == [Playback.LineMessage(Playback.Bot, d[0]),
                        Playback.LineMessage(Playback.User, d[1]),
                        Playback.LineMessage(Playback.Bot, d[2])]
      && !Playback.CanRecord(q, d)
  {
  }
}

=== FILE: seed.dfy ===
/** The bundled reference data: the ten daily words the store falls back to
    on first launch and the one scripted conversation. Grammar lessons and
    thematic packs are display-only and are not transcribed. */
module Seed {
  import opened Types

  const W1: Word := Word("w1", "der Apfel", "التفاحة", "The apple", "Ich esse einen Apfel.", A1, "Food")
  const W2: Word := Word("w2", "arbeiten", "يعمل", "To work", "Ich arbeite in Berlin.", A1, "Work")
  const W3: Word := Word("w3", "das Haus", "المنزل", "The house", "Das Haus ist groß.", A1, "Home")
  const W4: Word := Word("w4", "morgen", "غداً", "Tomorrow", "Bis morgen!", A1, "Time")
  const W5: Word := Word("w5", "danke", "شكراً", "Thank you", "Danke schön.", A1, "Basics")
  const W6: Word := Word("w6", "bitte", "عفواً / من فضلك", "Please / You're welcome", "Wie bitte?", A1, "Basics")
  const W7: Word := Word("w7", "die Katze", "القطة", "The cat", "Die Katze schläft.", A1, "Animals")
  const W8: Word := Word("w8", "gut", "جيد", "Good", "Mir geht es gut.", A1, "Adjectives")
  const W9: Word := Word("w9", "sehen", "يرى", "To see", "Ich sehe dich.", A1, "Verbs")
  const W10: Word := Word("w10", "schön", "جميل", "Beautiful", "Das Wetter ist schön.", A1, "Adjectives")

  /** The default vocabulary, in its bundled order. */
  const DailyWords: seq<Word> := [W1, W2, W3, W4, W5, W6, W7, W8, W9, W10]

  /** The only bundled conversation, "Kennenlernen". */
  const GettingToKnow: Conversation := Conversation("c1", "Kennenlernen (Getting to know)", [
    ConversationLine("A", "Hallo! Wie heißt du?", "مرحباً! ما اسمك؟"),
    ConversationLine("B", "Ich heiße Sarah. Und du?", "اسمي سارة. وأنت؟"),
    ConversationLine("A", "Ich bin Ahmed.", "أنا أحمد.")
  ])

  const Conversations: seq<Conversation> := [GettingToKnow]

  /** The bundled vocabulary has ten entries with pairwise distinct ids, all at level A1. */
  lemma DailyWordsWellFormed()
    ensures |DailyWords| == 10
    ensures IdsUnique(DailyWords)
    ensures forall w :: w in DailyWords ==> w.level == A1
  {
  }
}

=== FILE: seqs.dfy ===
/** Order-preserving selection from a sequence, the one list operation the
    application uses for deleting, for the flashcard queue and for search. */
module Seqs {

  /** `a` can be obtained from `b` by deleting elements, without reordering. */
  ghost predicate IsSubsequence<T>(a: seq<T>, b: seq<T>)
    decreases |b|
  {
    |a| == 0 ||
    (|b| > 0 && ((a[0] == b[0] && IsSubsequence(a[1..], b[1..])) || IsSubsequence(a, b[1..])))
  }

  /** The elements of `s` satisfying `p`, in their original order
      (JavaScript's `Array.prototype.filter`). */
  function Filter<T(!new)>(s: seq<T>, p: T -> bool): (r: seq<T>)
    ensures |r| <= |s|
    ensures forall x :: x in r <==> x in s && p(x)
    ensures IsSubsequence(r, s)
    decreases |s|
  {
    if |s| == 0 then []
    else if p(s[0]) then [s[0]] + Filter(s[1..], p)
    else Filter(s[1..], p)
  }

  /** A filter that every element passes returns its input unchanged. */
  lemma {:induction false} FilterKeepsAll<T(!new)>(s: seq<T>, p: T -> bool)
    requires forall i :: 0 <= i < |s| ==> p(s[i])
    ensures Filter(s, p) == s
    decreases |s|
  {
    if |s| > 0 {
      assert p(s[0]);
      FilterKeepsAll(s[1..], p);
      assert s == [s[0]] + s[1..];
    }
  }

  /** The filter keeps every copy of an element that passes and no copy of
      one that fails: the result is the sub-multiset of `s` selected by `p`. */
  lemma {:induction false} FilterCounts<T(!new)>(s: seq<T>, p: T -> bool)
    ensures forall x :: multiset(Filter(s, p))[x] == if p(x) then multiset(s)[x] else 0
    decreases |s|
  {
    if |s| > 0 {
      FilterCounts(s[1..], p);
      assert s == [s[0]] + s[1..];
    }
  }
}

=== FILE: store.dfy ===
/** The learner state store: the vocabulary, the ids marked learned and the
    streak counter, with the four mutators the provider exposes. Every
    mutator is a pure function from state to state; persistence of the
    result is in module Persistence. */
module AppStore {
  import opened Types
  import opened Seqs

  /** The in-memory state of the provider. `learned` is kept as the list the
      application stores, in the order ids were marked. */
  datatype AppState = AppState(words: seq<Word>, learned: seq<string>, streak: nat)

  /** The test `deleteWord` applies to each entry. */
  function IdIsNot(id: string): Word -> bool {
    (w: Word) => w.id != id
  }

  /** The entries of `ws` whose id is not `id`, in order. */
  function WithoutId(ws: seq<Word>, id: string): (r: seq<Word>)
    ensures forall w :: w in r <==> w in ws && w.id != id
    ensures IsSubsequence(r, ws)
  {
    Filter(ws, IdIsNot(id))
  }

  /** `addWord`: the new entry goes in front of the existing ones. */
  function AddWord(s: AppState, w: Word): (r: AppState)
    ensures |r.words| == |s.words| + 1
    ensures r.words[0] == w && r.words[1..] == s.words
    ensures r.learned == s.learned && r.streak == s.streak
  {
    s.(words := [w] + s.words)
  }

  /** `deleteWord`: every entry carrying `id` goes, the rest keep their
      order; the learned ids and the streak are not touched, so an id of a
      deleted entry may stay in `learned`. */
  function DeleteWord(s: AppState, id: string): (r: AppState)
    ensures forall w :: w in r.words <==> w in s.words && w.id != id
    ensures forall w :: multiset(r.words)[w] == if w.id != id then multiset(s.words)[w] else 0
    ensures IsSubsequence(r.words, s.words)
    ensures id !in Ids(r.words)
    ensures r.learned == s.learned && r.streak == s.streak
  {
    FilterCounts(s.words, IdIsNot(id));
    s.(words := WithoutId(s.words, id))
  }

  /** `markAsLearned`: append the id unless it is already listed. */
  function MarkAsLearned(s: AppState, id: string): (r: AppState)
    ensures id in r.learned
    ensures forall x :: x in r.learned <==> x in s.learned || x == id
    ensures id in s.learned ==> r.learned == s.learned
    ensures id !in s.learned ==> r.learned == s.learned + [id]
    ensures r.words == s.words && r.streak == s.streak
  {
    if id in s.learned then s else s.(learned := s.learned + [id])
  }

  /** `incrementStreak`: one more completed session. */
  function IncrementStreak(s: AppState): (r: AppState)
    ensures r.streak == s.streak + 1 && r.streak > s.streak
    ensures r.words == s.words && r.learned == s.learned
  {
    s.(streak := s.streak + 1)
  }

  /** No id appears twice in a list of learned ids. */
  ghost predicate NoDuplicates(xs: seq<string>) {
    forall i, j :: 0 <= i < j < |xs| ==> xs[i] != xs[j]
  }

  /** Marking the same id twice is the same as marking it once. */
  lemma MarkAsLearnedIdempotent(s: AppState, id: string)
    ensures MarkAsLearned(MarkAsLearned(s, id), id) == MarkAsLearned(s, id)
  {
  }

  /** Marking keeps a duplicate-free learned list duplicate-free, and adds
      at most one entry. */
  lemma MarkAsLearnedKeepsNoDuplicates(s: AppState, id: string)
    requires NoDuplicates(s.learned)
    ensures NoDuplicates(MarkAsLearned(s, id).learned)
    ensures |MarkAsLearned(s, id).learned| <= |s.learned| + 1
  {
  }

  /** Deleting an id no entry carries leaves the vocabulary as it was. */
  lemma DeleteAbsentIdIsNoOp(s: AppState, id: string)
    requires id !in Ids(s.words)
    ensures DeleteWord(s, id) == s
  {
    forall i | 0 <= i < |s.words|
      ensures s.words[i].id != id
    {
      assert s.words[i] in s.words;
    }
    FilterKeepsAll(s.words, IdIsNot(id));
  }

  /** Adding an entry with a fresh id and then deleting that id restores
      the original vocabulary, and the rest of the state. */
  lemma AddThenDeleteRestores(s: AppState, w: Word)
    requires w.id !in Ids(s.words)
    ensures DeleteWord(AddWord(s, w), w.id) == s
  {
    DeleteAbsentIdIsNoOp(s, w.id);
    assert AddWord(s, w).words[1..] == s.words;
  }

  /** Removing the id of the `i`-th entry from a list with unique ids
      removes just that entry. */
  lemma {:induction false} WithoutUniqueId(ws: seq<Word>, i: nat)
    requires IdsUnique(ws) && i < |ws|
    ensures WithoutId(ws, ws[i].id) == ws[..i] + ws[i + 1..]
    decreases |ws|
  {
    if i == 0 {
      WithoutFirstUniqueId(ws);
    } else {
      TailIdsUnique(ws);
      assert ws[1..][i - 1] == ws[i];
      WithoutUniqueId(ws[1..], i - 1);
      WithoutIdKeepsHead(ws, ws[i].id);
      SplitAfterHead(ws, i);
    }
  }

  /** A head entry that does not carry the id stays in front. */
  lemma WithoutIdKeepsHead(ws: seq<Word>, id: string)
    requires |ws| > 0 && ws[0].id != id
    ensures WithoutId(ws, id) == [ws[0]] + WithoutId(ws[1..], id)
  {
    assert IdIsNot(id)(ws[0]);
  }

  lemma SplitAfterHead(ws: seq<Word>, i: nat)
    requires 0 < i < |ws|
    ensures ws[..i] + ws[i + 1..] == [ws[0]] + (ws[1..][..i - 1] + ws[1..][i..])
  {
    assert ws[..i] == [ws[0]] + ws[1..][..i - 1];
    assert ws[i + 1..] == ws[1..][i..];
  }

  lemma TailIdsUnique(ws: seq<Word>)
    requires IdsUnique(ws) && |ws| > 0
    ensures IdsUnique(ws[1..])
  {
    var tail := ws[1..];
    forall a, b | 0 <= a < b < |tail|
      ensures tail[a].id != tail[b].id
    {
      assert tail[a] == ws[a + 1] && tail[b] == ws[b + 1];
    }
  }

  /** Removing the id of the first entry of a list with unique ids leaves
      the rest of the list. */
  lemma WithoutFirstUniqueId(ws: seq<Word>)
    requires IdsUnique(ws) && |ws| > 0
    ensures WithoutId(ws, ws[0].id) == ws[1..]
  {
    var id := ws[0].id;
    var tail := ws[1..];
    forall j | 0 <= j < |tail|
      ensures IdIsNot(id)(tail[j])
    {
      assert tail[j] == ws[j + 1];
    }
    FilterKeepsAll(tail, IdIsNot(id));
    assert !IdIsNot(id)(ws[0]);
    assert WithoutId(ws, id) == Filter(tail, IdIsNot(id));
  }

  /** `n` increments starting from `s`. */
  function IncrementTimes(s: AppState, n: nat): (r: AppState)
    ensures r.words == s.words && r.learned == s.learned
    decreases n
  {
    if n == 0 then s else IncrementStreak(IncrementTimes(s, n - 1))
  }

  /** `n` increments from a zero streak give a streak of `n`. */
  lemma {:induction false} IncrementTimesCounts(s: AppState, n: nat)
    ensures IncrementTimes(s, n).streak == s.streak + n
    decreases n
  {
    if n > 0 {
      IncrementTimesCounts(s, n - 1);
    }
  }

  /** The four mutators, as one alphabet of actions on the store. */
  datatype Action = Add(word: Word) | Delete(id: string) | MarkLearned(id: string) | Increment

  function Step(s: AppState, a: Action): (r: AppState)
    ensures r.streak >= s.streak
    ensures forall x :: x in s.learned ==> x in r.learned
  {
    match a
    case Add(w) => AddWord(s, w)
    case Delete(id) => DeleteWord(s, id)
    case MarkLearned(id) => MarkAsLearned(s, id)
    case Increment => IncrementStreak(s)
  }

  function Run(s: AppState, actions: seq<Action>): AppState
    decreases |actions|
  {
    if |actions| == 0 then s else Run(Step(s, actions[0]), actions[1..])
  }

  /** Over any sequence of store actions the streak never decreases, it
      grows by exactly the number of `Increment` actions, and no learned id
      is ever dropped. */
  lemma {:induction false} RunMonotone(s: AppState, actions: seq<Action>)
    ensures Run(s, actions).streak == s.streak + CountIncrements(actions)
    ensures Run(s, actions).streak >= s.streak
    ensures forall x :: x in s.learned ==> x in Run(s, actions).learned
    decreases |actions|
  {
    if |actions| > 0 {
      RunMonotone(Step(s, actions[0]), actions[1..]);
    }
  }

  function CountIncrements(actions: seq<Action>): nat
    decreases |actions|
  {
    if |actions| == 0 then 0
    else (if actions[0].Increment? then 1 else 0) + CountIncrements(actions[1..])
  }
}

=== FILE: types.dfy ===
/** The record types the application shares between its screens and its
    store, together with the small Option/Result wrappers the model uses for
    values that may be missing and for operations that may fail. */
module Types {

  /** A value that may be absent (`undefined` in the application). */
  datatype Option<+T> = None | Some(value: T)

  /** The outcome of an operation that may fail. */
  datatype Result<+T, +E> = Ok(value: T) | Err(error: E)

  /** Proficiency level of a vocabulary entry. */
  datatype Level = A1 | A2

  /** A vocabulary entry: German term with English and Arabic glosses. */
  datatype Word = Word(
    id: string,
    german: string,
    arabic: string,
    english: string,
    example: string,
    level: Level,
    category: string)

  /** One line of a scripted dialogue. */
  datatype ConversationLine = ConversationLine(speaker: string, text: string, translation: string)

  /** A scripted dialogue. */
  datatype Conversation = Conversation(id: string, title: string, dialogue: seq<ConversationLine>)

  /** No two entries of `ws` share an identifier. */
  ghost predicate IdsUnique(ws: seq<Word>) {
    forall i, j :: 0 <= i < j < |ws| ==> ws[i].id != ws[j].id
  }

  /** The identifiers of `ws`, as a set. */
  function Ids(ws: seq<Word>): (r: set<string>)
    ensures forall w :: w in ws ==> w.id in r
    ensures forall id :: id in r ==> exists w :: w in ws && w.id == id
  {
    set w | w in ws :: w.id
  }

  /** An id that no position of `ws` carries is not among its ids. */
  lemma AbsentFromIds(ws: seq<Word>, id: string)
    requires forall i :: 0 <= i < |ws| ==> ws[i].id != id
    ensures id !in Ids(ws)
  {
    forall w | w in ws
      ensures w.id != id
    {
      var i :| 0 <= i < |ws| && ws[i] == w;
    }
  }
}
